=== FILE: README.md ===
# Webinar status machine and content rules — a Dafny model

This project models the part of a Django content and webinar site that holds real logic. Its centre is the pre-save hook that recomputes a webinar's status (`upcoming`, `live`, `completed`, or a sticky `cancelled`) from the clock on every save. Around it sit:

- the derived predicates of the `Webinar`, `Blog` and `WebinarRegistration` models;
- the form validators for resources, start times, WhatsApp numbers and gender;
- the decisions that the administration and comment views take before they save.

Modelling conventions:

- Instants are whole minutes (`Webinars.Minute = int`) and prices are whole cents.
- The clock (`timezone.now()`) is a `now` parameter. One request uses one `now`, both in the view's own comparison and in the hook that runs on save.
- Every operation is a pure function or method over immutable records. Database tables are sequences or maps.
- The webinar status is a four-value enum. The string keys appear only where the source parses a posted value.
- Blog and registration statuses stay strings. Their columns accept any string, and the blog default `'draft'` is not one of the blog choice keys (`Draft`, `Published`, `Archived`). So a defaulted post is never published.

Modules:

- `Wrappers`: `Option` and `Result`.
- `Accounts`: the auth user fields that the views touch, and the profile's gender choices.
- `Webinars`: the record, its validators, and `is_free`, `end_datetime`, `is_upcoming` and `is_live`.
- `Signals`: the pre-save status hook. It is checked against an independent time-window definition (`TimeStatus`) and has lemmas on idempotence, history independence, monotonicity in time and stickiness of cancellation. `History` runs a series of saves.
- `Blogs`: the blog record, the comment record, `is_published` and the status default.
- `Registrations`: the status domain and the `(webinar, email)` uniqueness constraint.
- `Forms`: the validators, and the decimal representation behind the WhatsApp length cap.
- `Views`: the view decisions. Every webinar save goes through `Signals.PreSave`.

Behaviours worth knowing:

- The create view's pre-assignment replaces any form status, including `cancelled`, with `live` once the start has come. The create view runs only after the form accepted the start time, and that check refuses a start before `now`. So the pre-assignment fires only for a start exactly at `now`, and with a validated duration the new webinar is then `live`. A created webinar is never `completed`.
- The edit view keeps the status submitted on the form when that status is `cancelled`, and never produces `cancelled` from any other status. An administrator can still set or clear a cancellation through the form's `status` field. With a validated duration, the edit view's promotion of `upcoming` to `live` never fires: the first save has already set the status from the clock.
- A manual status update survives the save only when it is `cancelled` or agrees with the clock, because the save re-runs the hook.

## Model

| member | source | states |
|---|---|---|
| Accounts.ToggleActive | core/views.py:757 | the account's `is_active` flag is flipped and no other field changes |
| Accounts.ToggleActiveInvolution | core/views.py:757 | toggling an account twice gives back the original account |
| Webinars.ParseStatus | core/models.py:166-171 | a posted string is a status exactly when it is one of the four choice keys, and the status found has that key |
| Webinars.NewWebinar | core/models.py:189-201 | a fresh webinar starts as `upcoming`, costs 0 and is not featured |
| Webinars.FreeIffNothingCharged | core/models.py:222-224 | on a price that passed its `>= 0` validator, free means no charge and not free means a positive charge |
| Webinars.EndAfterStart | core/models.py:226-228 | with the duration validated to lie in 5..480 minutes, the end is 5 to 480 minutes after the start, so strictly after it |
| Webinars.UpcomingAndLiveExclusive | core/models.py:230-237 | at any moment `is_upcoming` and `is_live` are never both true |
| Webinars.StaleUpcomingIsLive | core/models.py:233-237 | a row still stored as `upcoming` counts as live from its start to its end, and as upcoming only before its start |
| Webinars.FinishedIsNeither | core/models.py:230-237 | a completed or cancelled webinar is neither upcoming nor live at any time |
| Signals.RecomputeStatus | core/signals.py:7-20 | cancelled stays cancelled; a missing start or a zero or missing duration leaves the status alone; otherwise the result is the clock's status for the window [start, start + duration], and `cancelled` is never produced |
| Signals.PreSave | core/signals.py:11-20 | a save changes only the status; it neither creates nor removes a cancellation; a zero duration changes nothing; for a non-cancelled webinar with a positive duration it stores the clock's status |
| Signals.TimeStatusCases | core/signals.py:15-20 | the clock's status is `completed` exactly when now > end, `live` exactly when start <= now <= end (both ends inclusive), and `upcoming` exactly when now < start |
| Signals.TimeStatusMonotone | core/signals.py:15-20 | as the clock advances, the status only moves upcoming, then live, then completed |
| Signals.PriorStatusIrrelevant | core/signals.py:14-20 | for a non-cancelled webinar with a positive duration, the recomputed status does not depend on the prior status |
| Signals.LastSaveWins | core/signals.py:14-20 | saving at t1 and then at t2 gives the same webinar as one save at t2 |
| Signals.PreSaveIdempotent | core/signals.py:14-20 | saving twice at the same moment gives the same result as saving once |
| Signals.PreSaveMonotone | core/signals.py:14-20 | a later save never gives a status earlier in the schedule than an earlier save |
| Signals.SavedStatusMatchesPredicates | core/models.py:230-237 | right after a save, `is_upcoming` and `is_live` agree with the stored status for every non-cancelled webinar with a positive duration |
| Signals.FirstSaveOfNewWebinar | core/signals.py:11-20 | the first save of a fresh webinar with a validated duration gives the clock's status, and `is_upcoming` and `is_live` then hold exactly before the start and inside the window |
| Signals.HistoryPointwise | core/signals.py:7-20 | after each save in a series, the status equals what a single save at that moment would give |
| Signals.NoBackwardTransitions | core/signals.py:14-20 | over saves at non-decreasing moments, the status never moves backwards |
| Signals.CancelledIsSticky | core/signals.py:14 | a cancelled webinar is still cancelled after every save in any series |
| Blogs.NewBlog | core/models.py:57-58 | a defaulted post has status `'draft'` and is unverified |
| Blogs.PublishedNeedsVerification | core/models.py:89-91 | a post is published exactly when its status is `Published` and it is verified; an unverified post never is |
| Blogs.DefaultStatusOutsideChoices | core/models.py:32-57 | the lower-case default `'draft'` is not one of the choice keys, and a defaulted post is not published |
| Registrations.FindSlot | core/models.py:262-263 | finds the first row with the same (webinar, email) pair, or reports that the pair is free |
| Registrations.Insert | core/models.py:262-263 | the database refuses a second row for a (webinar, email) pair; otherwise it appends the row unchanged, and the table stays unique |
| Registrations.FullClean | core/models.py:246-263 | validation reports a bad status exactly when the status is not pending, confirmed or cancelled, and reports a duplicate exactly when the pair is taken |
| Registrations.Register | core/models.py:246-263 | validation followed by insertion accepts exactly a valid status on a free pair; tables built this way stay unique and hold only valid statuses |
| Forms.CleanResource | core/forms.py:128-136 | the resource form is refused exactly when both file and URL are absent or empty; otherwise the cleaned data is returned unchanged |
| Forms.ResourceMayHaveBoth | core/forms.py:133-136 | a resource with both a file and a URL is accepted: there is no exclusivity check |
| Forms.ResourceVerdictOnlyOnFileAndUrl | core/forms.py:128-136 | whether a resource is accepted depends only on whether file and URL are present; no other field plays a part |
| Forms.SupplyingFileOrUrlFixesResource | core/forms.py:128-136 | a refused resource is accepted once a non-empty file or URL is added, and cleaning the accepted data again changes nothing |
| Forms.CleanStartDatetime | core/forms.py:94-98 | a start strictly before now is refused; a missing start passes; an accepted value is returned unchanged |
| Forms.StartAtNowAccepted | core/forms.py:96-97 | a start equal to now, or later, is accepted |
| Forms.DecimalString | core/forms.py:211 | `str` of a non-negative integer is a non-empty string of decimal digits with no leading zero |
| Forms.DecimalRoundTrip | core/forms.py:211 | reading the decimal representation back gives the original number |
| Forms.DecimalLengthBound | core/forms.py:211 | a number's representation has at most k digits exactly when the number is below 10^k |
| Forms.CleanWhatsapp | core/forms.py:209-213 | a non-zero number whose decimal form is longer than 15 characters is refused; a missing or zero value passes; an accepted value is returned unchanged |
| Forms.WhatsappCap | core/forms.py:209-213 | a number is accepted exactly when it is below 10^15, that is, when it has at most 15 digits |
| Forms.CleanGender | core/forms.py:176-182 | the optional gender field accepts the empty value or one of Male, Female or Others, and refuses anything else |
| Forms.GenderFormMatchesColumn | user/models.py:7-11 | the form's gender choices are the ones the profile column declares, so the form accepts exactly the empty value and the keys the column allows |
| Views.AdminBlogCreate | core/views.py:289-304 | the requester becomes the author; the status is `Published` exactly when the POST has a `publish` key, otherwise `Draft`; nothing else on the form changes |
| Views.NewPostNeedsVerification | core/views.py:292-304 | a post created with the publish button is still not published, because the creation form leaves it unverified |
| Views.BlogComment | core/views.py:113-128 | a POST for a missing blog is not found; a comment is appended only for a POST with non-empty content from a signed-in user; otherwise the comments are unchanged |
| Views.BlogCommentAppendsAtMostOne | core/views.py:113-128 | a comment request keeps the old comments as a prefix, adds at most one, and keeps every comment attached to an existing blog |
| Views.MarkLiveIfStarted | core/views.py:445-447 | on create, a webinar whose start has come is set to `live` whatever its form status; otherwise it is untouched |
| Views.AdminWebinarCreate | core/views.py:438-449 | the requester becomes the host; a started webinar ends up live or completed, even if the form said cancelled; with a positive duration the stored status is the clock's status unless the form said cancelled and the start is still ahead, in which case it stays cancelled |
| Views.CreateOverridesCancellation | core/views.py:446-449 | a cancellation chosen on the create form is lost once the start time has come |
| Views.CreateKeepsFutureCancellation | core/views.py:446-449 | before the start time, a cancellation chosen on the create form is kept |
| Views.CreateAfterValidation | core/views.py:438-449 | after the form accepted the start time, the pre-assignment fires only for a start exactly at now; with a validated duration a created webinar is never completed, and one starting now is live |
| Views.PromoteIfStarted | core/views.py:474-476 | the edit rule changes the status only from `upcoming` to `live`, and only when the start has come |
| Views.AdminWebinarEdit | core/views.py:468-476 | edit keeps every field but the status; the result is cancelled exactly when the submitted form status is; with a positive duration it equals one save; with a zero duration it is exactly the promotion rule |
| Views.EditPromotionRedundant | core/views.py:471-476 | with a validated duration, the promotion after the first save never changes anything |
| Views.UpdateWebinarStatus | core/views.py:597-609 | only a posted status key is applied and saved; anything else is refused and the webinar is unchanged; a GET changes nothing; the stored status is cancelled exactly when the posted one is, and otherwise, for a positive duration, it is the clock's status |
| Views.ManualStatusPersists | core/views.py:601-604 | for a positive duration, a manually chosen status survives the save exactly when it is `cancelled` or equals the clock's status |
| Views.AdminUserToggleActive | core/views.py:753-763 | a POST replaces the target account with its toggled copy, so only its active flag changes, and leaves every other account alone; a missing account is not found; a GET changes nothing |
| Views.ToggleTwiceRestores | core/views.py:757 | toggling the same account twice restores the user table |
| Views.AdminUserDelete | core/views.py:767-782 | a missing account is not found; deleting one's own account is refused; any other existing account is removed on POST and no other account changes; the requester always survives; a GET changes nothing |

## Left out

- Querysets, search filters, aggregates and pagination in the list and dashboard views: these are database behaviour, not logic of this repository.
- Templates, flash messages, redirects, URL routing and admin registration: these are framework configuration. A view's message becomes the `ViewError` it returns, or nothing.
- The `login_required` and staff/superuser decorators on the administration views: these are framework access control. The model starts after they have let the request through.
- Cloudinary image fields and their thumbnail URLs: these belong to an external media service.
- Login, registration, logout and impersonation: these are session handling over the framework's auth.
- The view-count increment on the blog detail page: it is an unguarded database read-modify-write, and the model has no concurrency.
- Placeholder views (settings, system status, activity log, exports): they return fixed data.
- The post-save console notification for unverified published posts: it is a print side effect.
- Capacity, seats remaining, webinar resources as stored records, tags, comment likes and slugs: the forms and views refer to them, but `core/models.py` does not define them. Only the resource form's file-or-URL rule is modelled. Because of these names, the forms module cannot be imported as written. `Category` has no `is_active` field, `Tag` and `WebinarResource` are undefined, and `capacity` is not a `Webinar` field. The views module star-imports the forms module, so none of the modelled forms or views can run as written. The `Forms.*` and `Views.*` members model the decision logic those files state.
- The registration's proof-of-payment file column (`payment_reference`): it is a file upload. No code generates payment references.
- Views.BlogComment: this describes the view's intended decision, not what the code does. As written, every POST raises an error. `Blog` declares no `slug` field, so the lookup by slug fails with a field error rather than a not-found response. Past that point, the comment is created with `user` and `content` keywords, but the `Comment` model declares `name` and `body`. The model's `Blogs.Comment` record follows the view's keywords, and the model looks the blog up by id.
- Views.AdminWebinarCreate, Views.AdminWebinarEdit and Views.UpdateWebinarStatus: a missing webinar (the 404 on lookup by primary key) is not modelled, and neither is form-level validation of the whole webinar form. One `now` stands for the slightly different clock readings in the view and in the hook.
- Views.AdminUserDelete: the on-delete cascade of `user.delete()` is not modelled. That cascade deletes the user's blog posts and their comments, deletes the user's profile, and sets the host of the user's webinars to null. The model's user table holds accounts only, so the contract speaks only about accounts.
- Registrations.Insert: email comparison is exact string equality. Database collation is not modelled.
- Real clocks, time zones and `Decimal` prices: these are replaced by integer minutes and integer cents.

=== FILE: accounts.dfy ===
/**
 * The slice of Django's auth `User` that the administration views read and
 * write, together with the gender choices declared on the user's `Profile`.
 */
module Accounts {

  type UserId = nat

  /** The choices declared on the profile's `gender` column. */
  const ProfileGenderChoices: seq<string> := ["Male", "Female", "Others"]

  datatype User = User(id: UserId, username: string, isActive: bool, isStaff: bool, isSuperuser: bool)

  /** Flips the account's `is_active` flag and keeps every other field. */
  function ToggleActive(u: User): (r: User)
    ensures r.isActive != u.isActive
    ensures r.(isActive := u.isActive) == u
  {
    u.(isActive := !u.isActive)
  }

  /** Toggling twice restores the account exactly. */
  lemma ToggleActiveInvolution(u: User)
    ensures ToggleActive(ToggleActive(u)) == u
  {
  }
}

=== FILE: blogs.dfy ===
/**
 * Blog posts and their comments: the publication predicate, the status
 * choices, and the column default.
 */
module Blogs {
  import opened Wrappers
  import Accounts

  type BlogId = nat
  type CategoryId = nat

  /** The keys of the blog status choices. */
  const StatusChoices: seq<string> := ["Draft", "Published", "Archived"]

  /** The default declared on the status column: lower-case, so not one of the choice keys. */
  const DefaultStatus: string := "draft"

  datatype Blog = Blog(
    title: string,
    author: Accounts.UserId,
    category: Option<CategoryId>,
    status: string,
    isVerified: bool)

  /** A comment as the comment view creates it: its fields follow the view's keywords (`user`, `content`). */
  datatype Comment = Comment(blog: BlogId, author: Accounts.UserId, content: string)

  /** Every comment belongs to one of the given blogs. */
  predicate CommentsReferTo(comments: seq<Comment>, blogs: set<BlogId>)
  {
    forall i :: 0 <= i < |comments| ==> comments[i].blog in blogs
  }

  /** A blog built with its defaulted columns at their defaults. */
  function NewBlog(title: string, author: Accounts.UserId, category: Option<CategoryId>): (b: Blog)
    ensures b.status == DefaultStatus && !b.isVerified
    ensures b.title == title && b.author == author && b.category == category
  {
    Blog(title, author, category, DefaultStatus, false)
  }

  predicate IsPublished(b: Blog)
  {
    b.status == "Published" && b.isVerified
  }

  /** A post is visible exactly when an administrator has verified it and its status is the published key. */
  lemma PublishedNeedsVerification(b: Blog)
    ensures !b.isVerified ==> !IsPublished(b)
    ensures IsPublished(b) <==> b.status == StatusChoices[1] && b.isVerified
  {
  }

  /** The column default is none of the choice keys, and a defaulted post is not published. */
  lemma DefaultStatusOutsideChoices(title: string, author: Accounts.UserId, category: Option<CategoryId>)
    ensures DefaultStatus !in StatusChoices
    ensures !IsPublished(NewBlog(title, author, category))
  {
  }
}

=== FILE: forms.dfy ===
/**
 * Field and form validators: resource file-or-URL, webinar start time,
 * WhatsApp number length, and the profile gender choices. Every validator
 * hands its input back unchanged when it accepts it.
 */
module Forms {
  import opened Wrappers
  import Webinars
  import Accounts

  datatype FormError = MissingFileAndUrl | StartInPast | WhatsappTooLong | InvalidGender

  /** A cleaned form: each field name maps to its value; an absent key reads as `None`. */
  type CleanedData = map<string, string>

  /** Python truthiness of a cleaned value: present and non-empty. */
  predicate Present(data: CleanedData, field: string)
  {
    field in data && data[field] != ""
  }

  /** The resource form's cross-field check: a file or a URL must be given. */
  function CleanResource(data: CleanedData): (r: Result<CleanedData, FormError>)
    ensures r.Ok? <==> Present(data, "file") || Present(data, "url")
    ensures r.Ok? ==> r.value == data
    ensures r.Err? ==> r.error == MissingFileAndUrl
  {
    if !Present(data, "file") && !Present(data, "url") then Err(MissingFileAndUrl)
    else Ok(data)
  }

  /** Nothing stops a resource from carrying both a file and a URL. */
  lemma ResourceMayHaveBoth(data: CleanedData)
    requires Present(data, "file") && Present(data, "url")
    ensures CleanResource(data) == Ok(data)
  {
  }

  /** Whether a resource is accepted depends only on its file and URL fields; the other fields play no part. */
  lemma ResourceVerdictOnlyOnFileAndUrl(a: CleanedData, b: CleanedData)
    requires Present(a, "file") == Present(b, "file") && Present(a, "url") == Present(b, "url")
    ensures CleanResource(a).Ok? <==> CleanResource(b).Ok?
  {
  }

  /** A refused resource is accepted once a non-empty file or URL is supplied, and cleaning it again changes nothing. */
  lemma SupplyingFileOrUrlFixesResource(data: CleanedData, field: string, value: string)
    requires CleanResource(data).Err?
    requires field == "file" || field == "url"
    requires value != ""
    ensures CleanResource(data[field := value]) == Ok(data[field := value])
    ensures CleanResource(CleanResource(data[field := value]).value) == CleanResource(data[field := value])
  {
    assert Present(data[field := value], field);
  }

  /** The start-time check: a start strictly before `now` is refused; a missing value passes. */
  function CleanStartDatetime(start: Option<Webinars.Minute>, now: Webinars.Minute): (r: Result<Option<Webinars.Minute>, FormError>)
    ensures r.Err? <==> start.Some? && start.value < now
    ensures r.Ok? ==> r.value == start
    ensures r.Err? ==> r.error == StartInPast
  {
    if start.Some? && start.value < now then Err(StartInPast) else Ok(start)
  }

  /** A start exactly at `now` is accepted, as is every later one. */
  lemma StartAtNowAccepted(start: Webinars.Minute, now: Webinars.Minute)
    requires now <= start
    ensures CleanStartDatetime(Some(start), now) == Ok(Some(start))
  {
  }

  /** The character for a single decimal digit. */
  function DigitChar(d: nat): (c: char)
    requires d < 10
    ensures '0' <= c <= '9'
  {
    "0123456789"[d]
  }

  /** The value of a decimal digit character. */
  function DigitValue(c: char): nat
  {
    if '0' <= c <= '9' then (c - '0') as nat else 0
  }

  /** The decimal representation of a non-negative integer, as Python's `str` writes it. */
  function DecimalString(n: nat): (s: string)
    ensures |s| >= 1
    ensures forall i :: 0 <= i < |s| ==> '0' <= s[i] <= '9'
    ensures n > 0 ==> s[0] != '0'
    decreases n
  {
    if n < 10 then [DigitChar(n)]
    else DecimalString(n / 10) + [DigitChar(n % 10)]
  }

  /** Reads a string of decimal digits back as a number, as Python's `int` does. */
  function ParseDecimal(s: string): nat
    decreases |s|
  {
    if |s| == 0 then 0
    else 10 * ParseDecimal(s[..|s| - 1]) + DigitValue(s[|s| - 1])
  }

  lemma DigitRoundTrip(d: nat)
    requires d < 10
    ensures DigitValue(DigitChar(d)) == d
  {
  }

  /** Reading the representation back gives the number. */
  lemma {:induction false} DecimalRoundTrip(n: nat)
    ensures ParseDecimal(DecimalString(n)) == n
    decreases n
  {
    DigitRoundTrip(n % 10);
    if n >= 10 {
      var s := DecimalString(n);
      assert s[..|s| - 1] == DecimalString(n / 10);
      DecimalRoundTrip(n / 10);
    }
  }

  function Pow10(k: nat): (p: nat)
    ensures p >= 1
  {
    if k == 0 then 1 else 10 * Pow10(k - 1)
  }

  /** A number has at most `k` digits exactly when it is below 10^k. */
  lemma {:induction false} DecimalLengthBound(n: nat, k: nat)
    requires k >= 1
    ensures |DecimalString(n)| <= k <==> n < Pow10(k)
    decreases n
  {
    if n < 10 {
      assert Pow10(k) == 10 * Pow10(k - 1);
    } else if k == 1 {
      assert |DecimalString(n)| == |DecimalString(n / 10)| + 1;
    } else {
      DecimalLengthBound(n / 10, k - 1);
      assert |DecimalString(n)| == |DecimalString(n / 10)| + 1;
      assert Pow10(k) == 10 * Pow10(k - 1);
      assert n / 10 < Pow10(k - 1) <==> n < 10 * Pow10(k - 1);
    }
  }

  const MaxWhatsappLength: nat := 15

  /** The WhatsApp check: a non-zero number whose decimal form is longer than 15 characters is refused. */
  function CleanWhatsapp(whatsapp: Option<nat>): (r: Result<Option<nat>, FormError>)
    ensures r.Err? <==> whatsapp.Some? && whatsapp.value != 0 && |DecimalString(whatsapp.value)| > MaxWhatsappLength
    ensures r.Ok? ==> r.value == whatsapp
    ensures r.Err? ==> r.error == WhatsappTooLong
  {
    if whatsapp.Some? && whatsapp.value != 0 && |DecimalString(whatsapp.value)| > MaxWhatsappLength then
      Err(WhatsappTooLong)
    else Ok(whatsapp)
  }

  /** The accepted numbers are exactly those below 10^15, that is, with at most fifteen digits. */
  lemma WhatsappCap(n: nat)
    ensures CleanWhatsapp(Some(n)).Ok? <==> n < 1_000_000_000_000_000
  {
    DecimalLengthBound(n, MaxWhatsappLength);
    assert Pow10(MaxWhatsappLength) == 1_000_000_000_000_000;
  }

  /** The keys of the profile form's gender choices. */
  const GenderChoices: seq<string> := ["Male", "Female", "Others"]

  /** The gender field is optional: an empty value passes, anything else must be a choice key. */
  function CleanGender(gender: string): (r: Result<string, FormError>)
    ensures r.Ok? <==> gender == "" || gender in GenderChoices
    ensures r.Ok? ==> r.value == gender
    ensures r.Err? ==> r.error == InvalidGender
  {
    if gender == "" || gender in GenderChoices then Ok(gender) else Err(InvalidGender)
  }

  /**
   * The form's choices are the ones the profile's `gender` column declares, so
   * the form accepts exactly the empty value and the keys the column allows.
   */
  lemma GenderFormMatchesColumn(gender: string)
    ensures GenderChoices == Accounts.ProfileGenderChoices
    ensures CleanGender(gender).Ok? <==> gender == "" || gender in Accounts.ProfileGenderChoices
  {
  }
}

=== FILE: registrations.dfy ===
/**
 * Webinar registrations: the status domain checked by model validation and
 * the (webinar, email) uniqueness constraint the database enforces.
 */
module Registrations {
  import opened Wrappers
  import Webinars

  /** The keys of the registration status choices. */
  const StatusChoices: seq<string> := ["pending", "confirmed", "cancelled"]

  datatype Registration = Registration(
    webinar: Webinars.WebinarId,
    fullName: string,
    email: string,
    status: string,
    question: Option<string>)

  /** A validation failure reported by model validation or by the database. */
  datatype RegError = InvalidStatus | DuplicateRegistration

  predicate SameSlot(a: Registration, b: Registration)
  {
    a.webinar == b.webinar && a.email == b.email
  }

  /** No two rows of the table share a (webinar, email) pair. */
  predicate UniqueSlots(table: seq<Registration>)
  {
    forall i, j :: 0 <= i < j < |table| ==> !SameSlot(table[i], table[j])
  }

  /** Some row already holds the (webinar, email) pair of `r`. */
  predicate Taken(table: seq<Registration>, r: Registration)
  {
    exists i :: 0 <= i < |table| && SameSlot(table[i], r)
  }

  /** Every row's status is one of the choice keys. */
  predicate StatusesValid(table: seq<Registration>)
  {
    forall i :: 0 <= i < |table| ==> table[i].status in StatusChoices
  }

  /**
   * Searches the table for a row with the same (webinar, email) pair; the
   * index of the first such row, or `None` when the pair is free.
   */
  method FindSlot(table: seq<Registration>, r: Registration) returns (found: Option<nat>)
    ensures found.None? <==> !Taken(table, r)
    ensures found.Some? ==> found.value < |table| && SameSlot(table[found.value], r)
    ensures found.Some? ==> forall k :: 0 <= k < found.value ==> !SameSlot(table[k], r)
  {
    var i := 0;
    while i < |table|
      invariant 0 <= i <= |table|
      invariant forall k :: 0 <= k < i ==> !SameSlot(table[k], r)
    {
      if table[i].webinar == r.webinar && table[i].email == r.email {
        return Some(i);
      }
      i := i + 1;
    }
    return None;
  }

  /**
   * Inserting a row: the database refuses a second row for the same
   * (webinar, email) pair and otherwise appends the row as given. The status
   * domain is not checked here; inserts bypass model validation.
   */
  method Insert(table: seq<Registration>, r: Registration) returns (res: Result<seq<Registration>, RegError>)
    requires UniqueSlots(table)
    ensures res.Err? <==> Taken(table, r)
    ensures res.Err? ==> res.error == DuplicateRegistration
    ensures res.Ok? ==> res.value == table + [r] && UniqueSlots(res.value)
  {
    var found := FindSlot(table, r);
    if found.Some? {
      return Err(DuplicateRegistration);
    }
    var t := table + [r];
    assert forall i :: 0 <= i < |table| ==> t[i] == table[i];
    return Ok(t);
  }

  /**
   * Model validation of a registration against the current table: every
   * failure it finds, the status domain and the uniqueness check together.
   */
  function FullClean(table: seq<Registration>, r: Registration): (errs: set<RegError>)
    ensures InvalidStatus in errs <==> r.status !in StatusChoices
    ensures DuplicateRegistration in errs <==> Taken(table, r)
  {
    (if r.status in StatusChoices then {} else {InvalidStatus})
    + (if Taken(table, r) then {DuplicateRegistration} else {})
  }

  /**
   * Validation followed by insertion: a table built this way only ever holds
   * rows whose status is a choice key, and never two rows for one pair.
   */
  method Register(table: seq<Registration>, r: Registration) returns (res: Result<seq<Registration>, set<RegError>>)
    requires UniqueSlots(table) && StatusesValid(table)
    ensures res.Ok? <==> r.status in StatusChoices && !Taken(table, r)
    ensures res.Ok? ==> res.value == table + [r] && UniqueSlots(res.value) && StatusesValid(res.value)
    ensures res.Err? ==> res.error != {} && res.error == FullClean(table, r)
  {
    var errs := FullClean(table, r);
    if errs != {} {
      return Err(errs);
    }
    var ins := Insert(table, r);
    assert ins.Ok?;
    return Ok(ins.value);
  }
}

=== FILE: signals.dfy ===
/**
 * The pre-save hook that recomputes a webinar's status from the clock on
 * every save. A cancelled webinar keeps its status; otherwise the status is
 * read off where `now` falls relative to the window [start, start + duration].
 */
module Signals {
  import opened Wrappers
  import opened Webinars

  /**
   * Reference definition of the status the clock implies: before the start
   * the webinar is upcoming, inside the closed window it is live, after its
   * end it is completed.
   */
  function TimeStatus(start: Minute, duration: nat, now: Minute): Status
  {
    if now < start then Upcoming
    else if now - start <= duration then Live
    else Completed
  }

  /** Position of a status along the schedule; cancelled stands apart, after the rest. */
  function Rank(s: Status): nat
  {
    match s
    case Upcoming => 0
    case Live => 1
    case Completed => 2
    case Cancelled => 3
  }

  /**
   * The hook on the raw instance values: a missing start, or a duration that
   * is missing or zero (falsy), leaves the status alone, and so does a
   * cancelled status.
   */
  function RecomputeStatus(status: Status, start: Option<Minute>, duration: Option<nat>, now: Minute): (r: Status)
    ensures status == Cancelled ==> r == Cancelled
    ensures start.None? || duration.None? || duration == Some(0) ==> r == status
    ensures status != Cancelled && start.Some? && duration.Some? && duration.value > 0 ==>
              r == TimeStatus(start.value, duration.value, now)
    ensures r == Cancelled ==> status == Cancelled
  {
    if start.Some? && duration.Some? && duration.value != 0 then
      var endTime := start.value + duration.value;
      if status != Cancelled then
        if now > endTime then Completed
        else if start.value <= now <= endTime then Live
        else Upcoming
      else status
    else status
  }

  /** Saving a stored webinar at `now`: only the status column can change. */
  function PreSave(w: Webinar, now: Minute): (r: Webinar)
    ensures r.(status := w.status) == w
    ensures w.status == Cancelled <==> r.status == Cancelled
    ensures w.duration == 0 ==> r == w
    ensures w.status != Cancelled && w.duration > 0 ==> r.status == TimeStatus(w.start, w.duration, now)
  {
    w.(status := RecomputeStatus(w.status, Some(w.start), Some(w.duration), now))
  }

  /** The clock's status is exactly one of the three scheduled values, each on its own stretch of time. */
  lemma TimeStatusCases(start: Minute, duration: nat, now: Minute)
    ensures TimeStatus(start, duration, now) != Cancelled
    ensures TimeStatus(start, duration, now) == Upcoming <==> now < start
    ensures TimeStatus(start, duration, now) == Live <==> start <= now <= start + duration
    ensures TimeStatus(start, duration, now) == Completed <==> now > start + duration
  {
  }

  /** As the clock advances the clock's status only moves upcoming, live, completed. */
  lemma TimeStatusMonotone(start: Minute, duration: nat, t1: Minute, t2: Minute)
    requires t1 <= t2
    ensures Rank(TimeStatus(start, duration, t1)) <= Rank(TimeStatus(start, duration, t2))
  {
  }

  /** For a non-cancelled webinar with a positive duration the prior status does not matter. */
  lemma PriorStatusIrrelevant(s1: Status, s2: Status, start: Minute, duration: nat, now: Minute)
    requires s1 != Cancelled && s2 != Cancelled && duration > 0
    ensures RecomputeStatus(s1, Some(start), Some(duration), now)
         == RecomputeStatus(s2, Some(start), Some(duration), now)
  {
  }

  /** Only the latest save counts: saving at t1 and then at t2 is the same as saving once at t2. */
  lemma LastSaveWins(w: Webinar, t1: Minute, t2: Minute)
    ensures PreSave(PreSave(w, t1), t2) == PreSave(w, t2)
  {
  }

  /** Saving twice at the same moment gives the same webinar as saving once. */
  lemma PreSaveIdempotent(w: Webinar, now: Minute)
    ensures PreSave(PreSave(w, now), now) == PreSave(w, now)
  {
    LastSaveWins(w, now, now);
  }

  /** Repeated saves never move the status backwards along the schedule. */
  lemma PreSaveMonotone(w: Webinar, t1: Minute, t2: Minute)
    requires t1 <= t2
    ensures Rank(PreSave(w, t1).status) <= Rank(PreSave(w, t2).status)
  {
    if w.status != Cancelled && w.duration > 0 {
      TimeStatusMonotone(w.start, w.duration, t1, t2);
    }
  }

  /**
   * Right after a save the model's `is_upcoming` and `is_live` agree with the
   * stored status, for every non-cancelled webinar with a positive duration.
   */
  lemma SavedStatusMatchesPredicates(w: Webinar, now: Minute)
    requires w.status != Cancelled && w.duration > 0
    ensures IsUpcoming(PreSave(w, now), now) <==> PreSave(w, now).status == Upcoming
    ensures IsLive(PreSave(w, now), now) <==> PreSave(w, now).status == Live
  {
  }

  /**
   * The first save of a freshly built webinar with a validated duration gives
   * the clock's status, and the model's predicates then agree with it.
   */
  lemma FirstSaveOfNewWebinar(title: string, start: Minute, duration: nat, now: Minute)
    requires ValidDuration(duration)
    ensures PreSave(NewWebinar(title, start, duration), now).status == TimeStatus(start, duration, now)
    ensures IsUpcoming(PreSave(NewWebinar(title, start, duration), now), now) <==> now < start
    ensures IsLive(PreSave(NewWebinar(title, start, duration), now), now) <==> start <= now <= start + duration
  {
  }

  /** The statuses a webinar shows after each save of a series of saves at the given moments. */
  function History(w: Webinar, times: seq<Minute>): (h: seq<Status>)
    ensures |h| == |times|
    decreases |times|
  {
    if |times| == 0 then []
    else
      var w' := PreSave(w, times[0]);
      [w'.status] + History(w', times[1..])
  }

  /** After every save of a series the status is the one a single save at that moment would give. */
  lemma {:induction false} HistoryPointwise(w: Webinar, times: seq<Minute>)
    ensures forall i :: 0 <= i < |times| ==> History(w, times)[i] == PreSave(w, times[i]).status
    decreases |times|
  {
    if |times| > 0 {
      var w' := PreSave(w, times[0]);
      HistoryPointwise(w', times[1..]);
      forall i | 1 <= i < |times|
        ensures History(w, times)[i] == PreSave(w, times[i]).status
      {
        assert History(w, times)[i] == History(w', times[1..])[i - 1];
        LastSaveWins(w, times[0], times[i]);
      }
    }
  }

  predicate Sorted(times: seq<Minute>)
  {
    forall i, j :: 0 <= i <= j < |times| ==> times[i] <= times[j]
  }

  /**
   * Over saves at non-decreasing moments the status never moves backwards:
   * upcoming may become live or completed, live may become completed, and a
   * cancelled webinar stays cancelled.
   */
  lemma NoBackwardTransitions(w: Webinar, times: seq<Minute>)
    requires Sorted(times)
    ensures forall i, j :: 0 <= i <= j < |times| ==>
              Rank(History(w, times)[i]) <= Rank(History(w, times)[j])
  {
    HistoryPointwise(w, times);
    forall i, j | 0 <= i <= j < |times|
      ensures Rank(History(w, times)[i]) <= Rank(History(w, times)[j])
    {
      PreSaveMonotone(w, times[i], times[j]);
    }
  }

  /** A cancelled webinar shows `cancelled` after every save of any series. */
  lemma CancelledIsSticky(w: Webinar, times: seq<Minute>)
    requires w.status == Cancelled
    ensures forall i :: 0 <= i < |times| ==> History(w, times)[i] == Cancelled
  {
    HistoryPointwise(w, times);
  }
}

=== FILE: views.dfy ===
/**
 * The decisions the administration and comment views take before they save:
 * blog publication on create, the comment gate, the status pre-assignment on
 * webinar create and edit, the manual status update, and user activation and
 * deletion. Every save of a webinar goes through the pre-save hook.
 */
module Views {
  import opened Wrappers
  import opened Webinars
  import opened Signals
  import Blogs
  import Accounts
  import Forms

  /** Why a view did nothing: the object is missing, or the request was refused. */
  datatype ViewError = NotFound | InvalidStatus | CannotDeleteSelf

  /**
   * Creating a blog post: the requester becomes the author, and the status
   * follows the button pressed: `Published` when the POST carries a
   * `publish` key, `Draft` otherwise. Nothing else of the form is changed.
   */
  function AdminBlogCreate(form: Blogs.Blog, requester: Accounts.UserId, postKeys: set<string>): (b: Blogs.Blog)
    ensures b.status in Blogs.StatusChoices
    ensures b.status == "Published" <==> "publish" in postKeys
    ensures "publish" !in postKeys ==> b.status == "Draft"
    ensures b.author == requester
    ensures b.(status := form.status, author := form.author) == form
    ensures !form.isVerified ==> !Blogs.IsPublished(b)
  {
    form.(author := requester, status := if "publish" in postKeys then "Published" else "Draft")
  }

  /** The publish button alone never makes a new post visible: the creation form leaves it unverified. */
  lemma NewPostNeedsVerification(title: string, category: Option<Blogs.CategoryId>, requester: Accounts.UserId, postKeys: set<string>)
    ensures !Blogs.IsPublished(AdminBlogCreate(Blogs.NewBlog(title, requester, category), requester, postKeys))
  {
  }

  /**
   * Posting a comment: the blog must exist; a comment is added only for a
   * POST with non-empty content from a signed-in user, and otherwise the
   * comments are left as they were.
   */
  function BlogComment(comments: seq<Blogs.Comment>, blogs: set<Blogs.BlogId>, blog: Blogs.BlogId,
                       user: Option<Accounts.UserId>, content: Option<string>, isPost: bool)
    : (r: Result<seq<Blogs.Comment>, ViewError>)
    ensures r.Err? <==> isPost && blog !in blogs
    ensures r.Err? ==> r.error == NotFound
    ensures r.Ok? && isPost && content.Some? && content.value != "" && user.Some? ==>
              r.value == comments + [Blogs.Comment(blog, user.value, content.value)]
    ensures r.Ok? && !(isPost && content.Some? && content.value != "" && user.Some?) ==> r.value == comments
  {
    if !isPost then Ok(comments)
    else if blog !in blogs then Err(NotFound)
    else if content.Some? && content.value != "" && user.Some? then
      Ok(comments + [Blogs.Comment(blog, user.value, content.value)])
    else Ok(comments)
  }

  /**
   * A comment request adds at most one comment, at the end, and keeps the
   * old ones as they were; when every comment belonged to an existing blog
   * it still does.
   */
  lemma BlogCommentAppendsAtMostOne(comments: seq<Blogs.Comment>, blogs: set<Blogs.BlogId>, blog: Blogs.BlogId,
                                    user: Option<Accounts.UserId>, content: Option<string>, isPost: bool)
    ensures BlogComment(comments, blogs, blog, user, content, isPost).Ok? ==>
              comments <= BlogComment(comments, blogs, blog, user, content, isPost).value
    ensures BlogComment(comments, blogs, blog, user, content, isPost).Ok? ==>
              |BlogComment(comments, blogs, blog, user, content, isPost).value| <= |comments| + 1
    ensures BlogComment(comments, blogs, blog, user, content, isPost).Ok? && Blogs.CommentsReferTo(comments, blogs) ==>
              Blogs.CommentsReferTo(BlogComment(comments, blogs, blog, user, content, isPost).value, blogs)
  {
  }

  /** The view's own pre-assignment on create: a webinar whose start has come is marked live, whatever the form said. */
  function MarkLiveIfStarted(w: Webinar, now: Minute): (r: Webinar)
    ensures w.start <= now ==> r.status == Live
    ensures w.start > now ==> r == w
    ensures r.(status := w.status) == w
  {
    if w.start <= now then w.(status := Live) else w
  }

  /**
   * Creating a webinar: the requester becomes the host, the pre-assignment
   * runs, and the save re-runs the pre-save hook. A started webinar ends up
   * live or completed even when the form asked for `cancelled`.
   */
  function AdminWebinarCreate(form: Webinar, requester: Accounts.UserId, now: Minute): (r: Webinar)
    ensures r.host == Some(requester)
    ensures r.(status := form.status, host := form.host) == form
    ensures form.start <= now ==> r.status == Live || r.status == Completed
    ensures form.start > now ==> r.status == RecomputeStatus(form.status, Some(form.start), Some(form.duration), now)
    ensures form.duration > 0 && (form.status != Cancelled || form.start <= now) ==>
              r.status == TimeStatus(form.start, form.duration, now)
  {
    PreSave(MarkLiveIfStarted(form.(host := Some(requester)), now), now)
  }

  /** Cancellation chosen on the create form does not survive once the start time has come. */
  lemma CreateOverridesCancellation(form: Webinar, requester: Accounts.UserId, now: Minute)
    requires form.status == Cancelled && form.start <= now
    ensures AdminWebinarCreate(form, requester, now).status != Cancelled
  {
  }

  /** Before the start time a cancellation chosen on the create form is kept. */
  lemma CreateKeepsFutureCancellation(form: Webinar, requester: Accounts.UserId, now: Minute)
    requires form.status == Cancelled && form.start > now
    ensures AdminWebinarCreate(form, requester, now).status == Cancelled
  {
  }

  /**
   * The create view runs only after the form accepted the start time, so the
   * pre-assignment fires only for a start exactly at `now`; with a validated
   * duration a new webinar is never completed, and one starting now is live.
   */
  lemma CreateAfterValidation(form: Webinar, requester: Accounts.UserId, now: Minute)
    requires Forms.CleanStartDatetime(Some(form.start), now).Ok?
    requires ValidDuration(form.duration)
    ensures AdminWebinarCreate(form, requester, now).status != Completed
    ensures form.start <= now ==> form.start == now && AdminWebinarCreate(form, requester, now).status == Live
  {
  }

  /** The view's own rule on edit: only `upcoming` is promoted, only to `live`, and only once the start has come. */
  function PromoteIfStarted(w: Webinar, now: Minute): (r: Webinar)
    ensures r.status != w.status <==> w.status == Upcoming && w.start <= now
    ensures r.status != w.status ==> r.status == Live
    ensures r.(status := w.status) == w
  {
    if w.start <= now && w.status == Upcoming then w.(status := Live) else w
  }

  /**
   * Editing a webinar: the form save runs the pre-save hook; the promotion
   * rule then applies, and when it fires a second save runs the hook again.
   */
  function AdminWebinarEdit(form: Webinar, now: Minute): (r: Webinar)
    ensures r.(status := form.status) == form
    ensures form.status == Cancelled <==> r.status == Cancelled
    ensures form.duration > 0 ==> r == PreSave(form, now)
    ensures form.duration == 0 ==> r == PromoteIfStarted(form, now)
  {
    var saved := PreSave(form, now);
    if saved.start <= now && saved.status == Upcoming then PreSave(saved.(status := Live), now)
    else saved
  }

  /** With a validated duration the promotion on edit never fires: the first save already left a started webinar live or completed. */
  lemma EditPromotionRedundant(form: Webinar, now: Minute)
    requires ValidDuration(form.duration)
    ensures PromoteIfStarted(PreSave(form, now), now) == PreSave(form, now)
    ensures AdminWebinarEdit(form, now) == PreSave(form, now)
  {
  }

  /**
   * The manual status update: a POSTed value that is a status key is
   * assigned and saved, which re-runs the pre-save hook; any other value is
   * refused and the webinar is left unchanged.
   */
  function UpdateWebinarStatus(w: Webinar, posted: Option<string>, now: Minute, isPost: bool): (r: Result<Webinar, ViewError>)
    ensures !isPost ==> r == Ok(w)
    ensures isPost ==> (r.Err? <==> posted.None? || ParseStatus(posted.value).None?)
    ensures r.Err? ==> r.error == InvalidStatus
    ensures isPost && r.Ok? ==> r.value.(status := w.status) == w
    ensures isPost && r.Ok? && w.duration == 0 ==> StatusKey(r.value.status) == posted.value
    ensures isPost && r.Ok? ==> (r.value.status == Cancelled <==> ParseStatus(posted.value).value == Cancelled)
    ensures isPost && r.Ok? && w.duration > 0 && ParseStatus(posted.value).value != Cancelled ==>
              r.value.status == TimeStatus(w.start, w.duration, now)
  {
    if !isPost then Ok(w)
    else if posted.None? then Err(InvalidStatus)
    else match ParseStatus(posted.value)
      case None => Err(InvalidStatus)
      case Some(s) => Ok(PreSave(w.(status := s), now))
  }

  /**
   * For a webinar with a positive duration a manual choice survives the save
   * exactly when it is `cancelled` or agrees with the clock.
   */
  lemma ManualStatusPersists(w: Webinar, s: Status, now: Minute)
    requires w.duration > 0
    ensures UpdateWebinarStatus(w, Some(StatusKey(s)), now, true).Ok?
    ensures (UpdateWebinarStatus(w, Some(StatusKey(s)), now, true).value.status == s)
        <==> (s == Cancelled || s == TimeStatus(w.start, w.duration, now))
  {
    ParseStatusKey(s);
  }

  /** Toggling activation: a POST flips the account's flag; a missing account is not found. */
  function AdminUserToggleActive(users: map<Accounts.UserId, Accounts.User>, pk: Accounts.UserId, isPost: bool)
    : (r: Result<map<Accounts.UserId, Accounts.User>, ViewError>)
    ensures r.Err? <==> pk !in users
    ensures r.Err? ==> r.error == NotFound
    ensures r.Ok? ==> r.value.Keys == users.Keys
    ensures r.Ok? ==> forall id :: id in users && id != pk ==> r.value[id] == users[id]
    ensures r.Ok? && isPost ==> r.value[pk].isActive != users[pk].isActive
    ensures r.Ok? && isPost ==> r.value[pk] == Accounts.ToggleActive(users[pk])
    ensures r.Ok? && !isPost ==> r.value == users
  {
    if pk !in users then Err(NotFound)
    else if isPost then Ok(users[pk := Accounts.ToggleActive(users[pk])])
    else Ok(users)
  }

  /** Two toggles of the same account restore the user table. */
  lemma ToggleTwiceRestores(users: map<Accounts.UserId, Accounts.User>, pk: Accounts.UserId)
    requires pk in users
    ensures AdminUserToggleActive(AdminUserToggleActive(users, pk, true).value, pk, true) == Ok(users)
  {
    var once := users[pk := Accounts.ToggleActive(users[pk])];
    Accounts.ToggleActiveInvolution(users[pk]);
    assert once[pk := Accounts.ToggleActive(once[pk])] == users;
  }

  /**
   * Deleting a user: an administrator may not delete their own account; any
   * other existing account is removed on POST. A GET only shows the
   * confirmation page.
   */
  function AdminUserDelete(users: map<Accounts.UserId, Accounts.User>, pk: Accounts.UserId,
                           requester: Accounts.UserId, isPost: bool)
    : (r: Result<map<Accounts.UserId, Accounts.User>, ViewError>)
    ensures r.Err? <==> pk !in users || (isPost && pk == requester)
    ensures pk !in users ==> r == Err(NotFound)
    ensures r.Err? && pk in users ==> r.error == CannotDeleteSelf
    ensures r.Ok? && isPost ==> r.value.Keys == users.Keys - {pk}
    ensures r.Ok? ==> forall id :: id in r.value ==> id in users && r.value[id] == users[id]
    ensures r.Ok? ==> requester in users ==> requester in r.value
    ensures r.Ok? && !isPost ==> r.value == users
  {
    if pk !in users then Err(NotFound)
    else if !isPost then Ok(users)
    else if pk == requester then Err(CannotDeleteSelf)
    else Ok(users - {pk})
  }
}

=== FILE: webinars.dfy ===
/**
 * The `Webinar` record and the properties derived from it: whether it is free,
 * when it ends, and whether it counts as upcoming or live at a given moment.
 * Instants are whole minutes and prices are whole cents.
 */
module Webinars {
  import opened Wrappers
  import Accounts

  /** An instant, in minutes since an arbitrary epoch. */
  type Minute = int

  /** An amount of money in cents; the price column keeps two decimal places. */
  type Cents = int

  type WebinarId = nat

  /** The four values of the webinar `status` column. */
  datatype Status = Upcoming | Live | Completed | Cancelled

  /** The key of each status as it is stored in the column. */
  function StatusKey(s: Status): string
  {
    match s
    case Upcoming => "upcoming"
    case Live => "live"
    case Completed => "completed"
    case Cancelled => "cancelled"
  }

  /** Looks a stored key up among the status choices; any other string is not a status. */
  function ParseStatus(key: string): (r: Option<Status>)
    ensures r.Some? ==> StatusKey(r.value) == key
    ensures r.None? <==> forall s: Status :: StatusKey(s) != key
  {
    if key == "upcoming" then Some(Upcoming)
    else if key == "live" then Some(Live)
    else if key == "completed" then Some(Completed)
    else if key == "cancelled" then Some(Cancelled)
    else None
  }

  lemma ParseStatusKey(s: Status)
    ensures ParseStatus(StatusKey(s)) == Some(s)
  {
  }

  datatype Webinar = Webinar(
    title: string,
    start: Minute,
    duration: nat,      // minutes
    status: Status,
    price: Cents,
    isFeatured: bool,
    host: Option<Accounts.UserId>)

  const DefaultStatus: Status := Upcoming
  const DefaultPrice: Cents := 0
  const MinDuration: nat := 5
  const MaxDuration: nat := 480

  /** A fresh webinar with every defaulted column at its default. */
  function NewWebinar(title: string, start: Minute, duration: nat): (w: Webinar)
    ensures w.status == Upcoming && w.price == 0 && !w.isFeatured && w.host.None?
    ensures w.title == title && w.start == start && w.duration == duration
  {
    Webinar(title, start, duration, DefaultStatus, DefaultPrice, false, None)
  }

  /** The validators declared on the `duration` column. */
  predicate ValidDuration(d: nat)
  {
    MinDuration <= d <= MaxDuration
  }

  /** The validator declared on the `price` column. */
  predicate ValidPrice(p: Cents)
  {
    p >= 0
  }

  predicate IsFree(w: Webinar)
  {
    w.price == 0
  }

  function EndDatetime(w: Webinar): Minute
  {
    w.start + w.duration
  }

  predicate IsUpcoming(w: Webinar, now: Minute)
  {
    w.status == Upcoming && w.start > now
  }

  predicate IsLive(w: Webinar, now: Minute)
  {
    w.status == Live || (w.status == Upcoming && w.start <= now <= EndDatetime(w))
  }

  /** On a validated record a free webinar is exactly one that charges nothing, and a priced one charges a positive amount. */
  lemma FreeIffNothingCharged(w: Webinar)
    requires ValidPrice(w.price)
    ensures IsFree(w) <==> w.price <= 0
    ensures !IsFree(w) <==> w.price > 0
  {
  }

  /** On a validated record the webinar ends between 5 and 480 minutes after it starts, so strictly after its start. */
  lemma EndAfterStart(w: Webinar)
    requires ValidDuration(w.duration)
    ensures w.start < EndDatetime(w)
    ensures w.start + MinDuration <= EndDatetime(w) <= w.start + MaxDuration
  {
  }

  /** At any one moment a webinar is never both upcoming and live. */
  lemma UpcomingAndLiveExclusive(w: Webinar, now: Minute)
    ensures !(IsUpcoming(w, now) && IsLive(w, now))
  {
  }

  /** A record stored as `upcoming` is live or upcoming at every moment up to its end. */
  lemma StaleUpcomingIsLive(w: Webinar, now: Minute)
    requires w.status == Upcoming
    requires now <= EndDatetime(w)
    ensures IsUpcoming(w, now) <==> now < w.start
    ensures IsLive(w, now) <==> w.start <= now
  {
  }

  /** Completed and cancelled webinars are neither upcoming nor live, whatever the clock says. */
  lemma FinishedIsNeither(w: Webinar, now: Minute)
    requires w.status == Completed || w.status == Cancelled
    ensures !IsUpcoming(w, now) && !IsLive(w, now)
  {
  }
}

=== FILE: wrappers.dfy ===
/** Optional values and error-carrying results shared by every module of the model. */
module Wrappers {

  /** A value that may be missing: Python's `None` versus a present value. */
  datatype Option<+T> = None | Some(value: T)

  /** Either a successful value or the error that a validator raised instead. */
  datatype Result<+T, +E> = Ok(value: T) | Err(error: E)
}
